=== FILE: README.md ===
# Flat-shaded, z-buffered triangle rasterizer: a Dafny model

This project models the core of a small software renderer (`rend.cpp`).
It has two parts.

The first part is the **pixel buffer**. The renderer keeps a grid of
`xres × yres` cells, and each cell holds an 8-bit red, green and blue, an
alpha flag and an integer depth. These operations are modelled:

- a bounds test (`isOutOfBound`);
- a 12-bit intensity clamp (`clamp`);
- a write that clamps and quantizes by a 4-bit right shift (`GzPut`);
- a read that leaves its outputs alone out of range (`GzGet`);
- a reset to white at maximum depth (`GzDefault`);
- packing into the display's blue-green-red frame buffer (`GzFlushDisplay2FrameBuffer`);
- the attribute list that sets the flat colour (`GzPutAttribute`).

The second part is the **scanline structure of `GzPutTriangle`**, over
exact reals:

- the three vertices are sorted by y;
- `isLeftOf` classifies the edges into a left and a right boundary;
- each half of the triangle, above and below the middle vertex, is walked
  row by row with DDA cursors;
- `setSpan` snaps each span's left end up to the first pixel column;
- each covered pixel is depth-tested and written.

Every loop is stated against a closed-form description. `Scanline.RowOf`
gives a row's ends directly on the edge lines, and `Scanline.Shade` gives
what a row does to one pixel. A separate module proves the classification
correct and shows that degenerate triangles draw nothing.

Files and modules:

- `pixels.dfy`, module `PixelBuffer`: cells, bounds, clamp, put, get, reset.
- `display.dfy`, module `Display`: the frame-buffer flush.
- `attributes.dfy`, module `Attributes`: tokens, the last-wins scan of a
  name/value list, and the flat colour.
- `geometry.dfy`, module `Geometry`: vertices, `ceil`, truncation, edges
  and their cursors, `isLeftOf`, the y-sort and `setSpan`.
- `scanline.dfy`, module `Scanline`: the depth test, row fill, half-triangle
  fill, whole triangle and triangle submission.
- `triangle_facts.dfy`, module `TriangleFacts`: properties of the drawn
  triangle.

Assumptions about definitions that live in headers outside this model:

- `ARRAY(x, y)` is taken to be row-major, `x + y * xres`.
- `GzIntensity` and `GzDepth` are integers. The reset depth is `INT_MAX`
  of a 32-bit `int`.
- The flat index `ARRAY(x, y)`, the allocation size `xres * yres` and
  the frame-buffer counter, which reaches `3 * xres * yres`, are 32-bit
  `int`s. A valid buffer (`PixelBuffer.Buffer.Valid`) therefore has
  `3 * xres * yres <= INT_MAX`, so none of them overflows.
- Passing a float depth to `GzPut` converts it to `int` by truncation
  toward zero (`Geometry.Trunc`).
- The token constants are distinct values: `RgbColor`, `Position`,
  `NullToken` and any `OtherToken`.

### Horizontal edges and empty spans

The source divides by an edge's height and by a span's width without
checking for zero. The model does not add a guard that changes behaviour.
Instead it keeps the source's results, as follows:

- **Horizontal short edge.** A half whose short edge is horizontal has no
  row, because `ceil(y) >= y`. The source's cursor on that edge holds an
  infinity or a NaN. The source still passes it to `setSpan`, but the row
  loop then runs zero times, so no row uses that span. `Scanline.FillHalf`
  therefore skips the half without computing that cursor or its span.
- **Horizontal long edge.** If the long edge is horizontal, all three
  vertices share one height and neither half has a row.
  `Scanline.Rasterize` returns the buffer unchanged.
- **Horizontal top edge in `isLeftOf`.** The classification still reads
  the top edge's slope. In IEEE arithmetic that slope is `dx / +0.0`: an
  infinity with the sign of `dx`, or NaN when `dx` is also zero. That
  slope times the height difference `d` to the other edge's end is
  -infinity, and so left of everything, exactly when `dx` and `d` have
  opposite signs. Otherwise it is +infinity or NaN, and the test is false.
  `Geometry.IsLeftOf` models this for every `d`, not only the `d >= 0` that
  the sorted vertices produce. As a result, flat-topped
  triangles are in scope, and `TriangleFacts.RowEndsOrdered` shows they are
  classified correctly.
- **Empty span.** `setSpan` divides by the span's width. The row's column
  loop reads the span's start and end columns on every row. The quotient,
  the depth slope and the running depth derived from it, is read only
  when some column is covered. In that case
  `left.x <= ceil(left.x) < right.x`, so the width is positive.
  `Scanline.FillRow` therefore tests `ceil(left.x) < right.x`, the loop's
  first comparison, and calls `SetSpan` only when it holds.

### Depth is stored as an integer

The depth test compares the float span depth with the stored integer
depth. The write then stores the truncated depth. As a result, a later
triangle that is nearer by less than one unit can lose the test. A pixel
first drawn at depth 0.5 stores 0, and a second write at 0.2 is then
rejected (`TriangleFacts.FractionalDepthTruncated`). For the same reason,
submission order matters. With depths 0.5 and 0.2, whichever of the two
triangles is submitted first keeps the pixel
(`TriangleFacts.SubmissionOrderMatters`). The model follows the code here.

## Model

| member | source | states |
|---|---|---|
| `PixelBuffer.IsOutOfBound` | rend.cpp:85-88 | The test with `xres - 1 < x` on promoted unsigned resolutions is true exactly when the cell lies outside `[0, xres) × [0, yres)`. |
| `PixelBuffer.Clamp` | rend.cpp:91-96 | The result lies in [0, 4095]. In-range values come back unchanged. The result is the point of [0, 4095] nearest the input. |
| `PixelBuffer.ClampIdempotent` | rend.cpp:91-96 | Clamping twice is clamping once. |
| `PixelBuffer.ClampMonotone` | rend.cpp:91-96 | Clamping preserves order. |
| `PixelBuffer.Quantize` | rend.cpp:104-110 | A stored channel lies in [0, 255] and is the top 8 of the clamped 12 bits (`q*16 <= clamp(v) < q*16 + 16`). Any input at or above 4095, such as 5000, stores 255. |
| `PixelBuffer.Put` | rend.cpp:99-113 | Out of range, the buffer is unchanged. In range, only cell (i, j) changes: its channels are the quantized colour in [0, 255], and alpha and depth are stored verbatim. |
| `PixelBuffer.Get` | rend.cpp:116-128 | Out of range, all five outputs keep their previous values. In range, the outputs are the cell's contents. |
| `PixelBuffer.PutThenGet` | rend.cpp:99-128 | Reading a cell right after writing it returns `clamp(v) >> 4` for each colour channel and the given alpha and depth. |
| `PixelBuffer.Default` | rend.cpp:72-82 | After the reset, every cell, by flat index and by (x, y), is {4095, 4095, 4095, 1, INT_MAX}. This is the unshifted 12-bit white. The resolution is unchanged. |
| `Display.Low8` | rend.cpp:163-165 | The `(unsigned char)` cast gives the unique byte congruent to the value modulo 256. |
| `Display.FlushToFrameBuffer` | rend.cpp:150-170 | Exactly `3·xres·yres` bytes are written. For pixel (x, y), bytes `3·(x + y·xres)`, `+1` and `+2` hold the low 8 bits of blue, green and red. |
| `Attributes.Latest` | rend.cpp:182-188 | Scanning a name/value list keeps the value of the last entry with the wanted name, or the initial value when no entry has that name. |
| `Attributes.LatestConcat` | rend.cpp:182-188 | Scanning two lists in turn is the same as scanning their concatenation, so successive attribute calls compose. |
| `Attributes.PutAttribute` | rend.cpp:176-190 | The flat colour changes only through `GZ_RGB_COLOR` entries. The last such entry wins, and with none the colour is unchanged. |
| `Attributes.PutAttributeIgnoresOthers` | rend.cpp:182-188 | Removing any entry not named `GZ_RGB_COLOR` from the list does not change the resulting colour. |
| `Geometry.Ceil` | rend.cpp:195 | `ceil` gives the smallest integer not below its argument. |
| `Geometry.Trunc` | rend.cpp:265 | The float-to-`int` depth conversion truncates toward zero: it stays within one unit of the value, on the zero side. |
| `Geometry.SlopeX` | rend.cpp:225-233 | An edge's x slope times its height is its x extent. |
| `Geometry.SlopeZ` | rend.cpp:225-233 | An edge's depth slope times its height is its depth extent. |
| `Geometry.IsLeftOf` | rend.cpp:43-46 | For a downward edge e1, the result is the orientation test: e1's line passes strictly left of e2's end exactly when the cross product `dir × off = dir.x·off.y − dir.y·off.x`, of e1's direction `dir` and the offset `off` from e1's start to e2's end, is negative. An upward e1 gives the mirrored test. A horizontal e1 follows IEEE division by zero: the result is true exactly when e2 ends below e1 and e1 runs leftwards, or e2 ends above e1 and e1 runs rightwards. |
| `Geometry.EdgeAt` | rend.cpp:257-259 | A first-row cursor, placed by the slopes times `ceil(y) - y`, lies on the straight line through the edge's two ends, in x and in z. At the two end heights it is the end vertex itself. |
| `Geometry.Step` | rend.cpp:269-270 | Adding the slopes to a cursor on an edge gives that edge's point one row further down. |
| `Geometry.SortByY` | rend.cpp:219-220 | The result is sorted by y and is a permutation of the three vertices. Input that is already sorted comes back unchanged. |
| `Geometry.SetSpan` | rend.cpp:193-197 | The span starts at column `ceil(left.x)` on the left end's row. Its depth slope times the width equals the depth difference. Its first pixel's depth lies on the line from the left end to the right end. |
| `Scanline.DepthTest` | rend.cpp:264-265 | A pixel is written only when its depth is strictly less than the stored depth, and an equal depth leaves it untouched. The stored depth never increases. |
| `Scanline.FillRow` | rend.cpp:263-267 | Only row y changes. Each of its cells equals the closed-form `Shade`: a column in `[ceil(left.x), right.x)` is depth-tested at the depth on the line between the ends, and every other cell is unchanged. |
| `Scanline.FillHalf` | rend.cpp:256-327 | Only rows in `[ceil(short.start.y), short.end.y)` change, each filled between the edge lines at that height. The long-edge cursor handed back is that edge's point at `ceil(short.end.y)`, where the lower half resumes. |
| `Scanline.Rasterize` | rend.cpp:224-328 | Every cell of the result equals the closed-form `RowOf` description of the triangle applied to the old cell. A triangle with all three vertices at one height leaves the buffer unchanged. |
| `Scanline.SpanSplit` | rend.cpp:263 | Two spans meeting at a shared point split the columns of their union: no column is in both, and none is lost. |
| `Scanline.RowSplit` | rend.cpp:262-279 | The rows of two edges that meet at one height split the rows of the combined height range: no row is in both, and none is lost. |
| `Scanline.PutTriangle` | rend.cpp:200-222 | The last `GZ_POSITION` entry's vertices, sorted by y, are the ones rasterized. With no such entry, the buffer is unchanged. |
| `TriangleFacts.MiddleSideMatchesClassification` | rend.cpp:43-46 | `isLeftOf(e01, e02)` holds exactly when the middle vertex lies strictly left of the long edge. This includes a horizontal top edge. |
| `TriangleFacts.UpperEdgesOrdered` | rend.cpp:237-240 | Above the middle vertex, the top edge lies on the side the classification assigns it. |
| `TriangleFacts.LowerEdgesOrdered` | rend.cpp:241-245 | Below the middle vertex, the bottom edge lies on the side the classification assigns it. |
| `TriangleFacts.RowEndsOrdered` | rend.cpp:235-245 | Every integer row from `ceil(top.y)` up to, but not including, `bottom.y` is drawn. In each such row, the left end is not right of the right end, in both configurations. |
| `TriangleFacts.UpperEdgesMeet` | rend.cpp:255-272 | In a collinear triangle, the top edge coincides with the long edge. |
| `TriangleFacts.MiddleOnLongEdge` | rend.cpp:274-277 | In a collinear triangle, the middle vertex lies on the long edge. |
| `TriangleFacts.LowerEdgesMeet` | rend.cpp:274-290 | In a collinear triangle, the bottom edge coincides with the long edge. |
| `TriangleFacts.DegenerateDrawsNothing` | rend.cpp:255-328 | A triangle with collinear or coincident vertices writes no pixel. |
| `TriangleFacts.WrittenPixelsObeyFillRule` | rend.cpp:262-266 | A changed pixel lies in a row within `[ceil(top.y), bottom.y)` and a column within `[ceil(left.x), right.x)`. Its span depth was strictly less than the stored depth, and its depth did not increase. |
| `TriangleFacts.EdgeBetweenEnds` | rend.cpp:225-233 | Between its end heights, an edge's point lies between the edge's end columns. |
| `TriangleFacts.WrittenPixelsInBoundingBox` | rend.cpp:255-328 | A changed pixel lies inside the vertices' bounding box: its row is in `[min y, max y)` and its column in `[min x, max x)`. |
| `TriangleFacts.TriangleNeverRaisesDepth` | rend.cpp:262-266 | Drawing a triangle never increases any stored depth. |
| `TriangleFacts.TopTieOrderIrrelevant` | rend.cpp:219-291 | When the top two vertices share a height, swapping them, as `std::sort` may, changes neither which pixels are covered nor what is written. |
| `TriangleFacts.BottomTieOrderIrrelevant` | rend.cpp:219-328 | When the bottom two vertices share a height, swapping them changes neither which pixels are covered nor what is written. |
| `TriangleFacts.RightTriangleCoverage` | rend.cpp:216-328 | The triangle (0,0), (10,0), (0,10), submitted in any of its six vertex orders, covers exactly the pixels with `0 <= y < 10`, `x >= 0` and `x + y < 10`. |
| `TriangleFacts.FractionalDepthTruncated` | rend.cpp:265 | A pixel drawn at depth 0.5 stores depth 0, so a later write at depth 0.2 is rejected. |
| `TriangleFacts.SubmissionOrderMatters` | rend.cpp:264-265 | Writing depths 0.5 then 0.2 keeps the first colour. Writing 0.2 then 0.5 keeps the other colour. When the two colours quantize differently, the two orders leave different pixels. |

## Left out

- `GzFlushDisplay2File` writes a PPM header and pixels to a `FILE*`. This is file I/O.
- The constructor and destructor only allocate and free the two buffers.
  The model takes the buffer as a value of the right size and returns the
  frame buffer as a sequence.
- The `ctoi` conversion of a float colour in [0, 1] to an intensity is
  defined outside this model. The flat colour is modelled as
  already-converted integers.
- Float rounding in the edge and span DDA, in `ceil` and in the
  float/`int` depth comparison is not modelled. For example, `INT_MAX`
  becomes 2^31 as a float. All geometry is over exact reals.
- Scanline.FillHalf and Scanline.FillRow: do not model the undefined
  behaviour of the `int` conversions that start the row and column loops
  (`int y = ceil(...)`, `int x = span.start.x`) when the float lies
  outside the `int` range. The model's row and column counters are
  unbounded integers.
- Geometry.Trunc: does not model the undefined behaviour of converting a
  float below the `int` range to `int`.
- PixelBuffer.Put: does not bound channels, alpha or depth to the widths of
  `GzIntensity` and `GzDepth`, which the headers outside this model define.
  Channels are stored after clamping, so they always fit.
- Geometry.SortByY: `std::sort` leaves the order of equal heights to the
  library. The model keeps them in their given order, which is one
  admissible outcome. `TriangleFacts.TopTieOrderIrrelevant` and
  `TriangleFacts.BottomTieOrderIrrelevant` show that the other orders
  draw the same pixels.
- Every operation returns `GZ_SUCCESS` unconditionally, so the model drops
  the status code.
- The "current" point of an edge record is never read after construction,
  so the model's `Edge` holds only its two ends.
- Two triangles that share an edge never both draw, and never both skip,
  a pixel on it. The model proves this for one span or one edge's rows
  (`Scanline.SpanSplit`, `Scanline.RowSplit`), but not for two whole
  triangles. That statement would need a model of two triangles' edge
  classifications side by side. Over floats it also depends on both
  triangles computing the shared edge's cursor identically, and the model
  leaves rounding out.

=== FILE: attributes.dfy ===
/**
 Name/value lists handed to the renderer, and the flat-colour attribute.

 The renderer's token constants are opaque integers; here they are distinct
 constructors, and every token the core does not look at is `OtherToken`.
 */
module Attributes {

  datatype Token = NullToken | RgbColor | Position | OtherToken(code: int)

  /** One entry of a name/value list whose values have type `T`. */
  datatype Item<T> = Item(name: Token, value: T)

  /**
   Scan a name/value list front to back, taking the value of every entry
   named `wanted`: the result is the value of the last such entry, or
   `init` when there is none.
   */
  function Latest<T>(items: seq<Item<T>>, wanted: Token, init: T): (r: T)
    ensures (forall k :: 0 <= k < |items| ==> items[k].name != wanted) ==> r == init
    ensures forall k :: 0 <= k < |items| && items[k].name == wanted && LastNamed(items, wanted, k) ==> r == items[k].value
    decreases |items|
  {
    if |items| == 0 then init
    else
      var next := if items[0].name == wanted then items[0].value else init;
      var r := Latest(items[1..], wanted, next);
      assert forall k :: 1 <= k < |items| ==> items[1..][k - 1] == items[k];
      r
  }

  /** No entry after position `k` is named `wanted`. */
  ghost predicate LastNamed<T>(items: seq<Item<T>>, wanted: Token, k: nat) {
    forall m :: k < m < |items| ==> items[m].name != wanted
  }

  /** Scanning two lists one after the other is scanning their concatenation. */
  lemma {:induction false} LatestConcat<T>(a: seq<Item<T>>, b: seq<Item<T>>, wanted: Token, init: T)
    ensures Latest(a + b, wanted, init) == Latest(b, wanted, Latest(a, wanted, init))
    decreases |a|
  {
    if |a| == 0 {
      assert a + b == b;
    } else {
      var next := if a[0].name == wanted then a[0].value else init;
      assert (a + b)[1..] == a[1..] + b;
      LatestConcat(a[1..], b, wanted, next);
    }
  }

  /** An intensity triple, already converted from the [0, 1] float colour. */
  datatype Color = Color(r: int, g: int, b: int)

  /**
   Set the flat colour from an attribute list: only entries named
   `RgbColor` change it, the last one wins, and every other entry is ignored.
   */
  function PutAttribute(flat: Color, attrs: seq<Item<Color>>): (res: Color)
    ensures (forall k :: 0 <= k < |attrs| ==> attrs[k].name != RgbColor) ==> res == flat
    ensures forall k :: 0 <= k < |attrs| && attrs[k].name == RgbColor && LastNamed(attrs, RgbColor, k) ==> res == attrs[k].value
  {
    Latest(attrs, RgbColor, flat)
  }

  /** Dropping an entry whose name is not `RgbColor` does not change the flat colour. */
  lemma PutAttributeIgnoresOthers(flat: Color, a: seq<Item<Color>>, other: Item<Color>, b: seq<Item<Color>>)
    requires other.name != RgbColor
    ensures PutAttribute(flat, a + [other] + b) == PutAttribute(flat, a + b)
  {
    LatestConcat(a + [other], b, RgbColor, flat);
    LatestConcat(a, [other], RgbColor, flat);
    LatestConcat(a, b, RgbColor, flat);
    var mid := Latest(a, RgbColor, flat);
    assert [other][1..] == [];
    assert Latest([other], RgbColor, mid) == mid;
  }
}

=== FILE: display.dfy ===
/**
 Draining the pixel buffer into the display's frame buffer: three bytes per
 cell, blue, green, red, in row-major order.
 */
module Display {
  import opened PixelBuffer

  newtype byte = b: int | 0 <= b < 256

  /** The `(unsigned char)` cast: the low 8 bits of a two's-complement value. */
  function Low8(v: int): (b: byte)
    ensures (v - b as int) % 256 == 0
  {
    (v % 256) as byte
  }

  /** Pack every cell, row by row, as the bytes blue, green, red. */
  method FlushToFrameBuffer(buf: Buffer) returns (fb: seq<byte>)
    requires buf.Valid()
    ensures |fb| == 3 * buf.xres * buf.yres
    ensures forall x, y :: InBounds(buf, x, y) ==>
              && fb[3 * Index(buf, x, y)] == Low8(At(buf, x, y).blue)
              && fb[3 * Index(buf, x, y) + 1] == Low8(At(buf, x, y).green)
              && fb[3 * Index(buf, x, y) + 2] == Low8(At(buf, x, y).red)
  {
    var w, h := buf.xres, buf.yres;
    // the five output locations GzGet writes into, zero-initialised
    var p := Pixel(0, 0, 0, 0, 0);
    fb := [];
    var y, done := 0, 0;
    while y < h
      invariant 0 <= y <= h
      invariant done == y * w
      invariant done <= w * h
      invariant |fb| == 3 * done
      invariant forall k :: 0 <= k < done ==> Packed(fb, k, buf.cells[k])
    {
      MulLeft(y + 1, h, w);
      NextRow(y, w);
      MulComm(h, w);
      var x := 0;
      while x < w
        invariant 0 <= x <= w
        invariant done + w <= w * h
        invariant |fb| == 3 * (done + x)
        invariant forall k :: 0 <= k < done + x ==> Packed(fb, k, buf.cells[k])
      {
        p := Get(buf, x, y, p);
        assert p == buf.cells[done + x];
        fb := fb + [Low8(p.blue), Low8(p.green), Low8(p.red)];
        x := x + 1;
      }
      y, done := y + 1, done + w;
    }
    MulComm(h, w);
  }

  /** Bytes 3k, 3k+1 and 3k+2 of `fb` hold cell `p`'s blue, green and red. */
  ghost predicate Packed(fb: seq<byte>, k: nat, p: Pixel) {
    && 3 * k + 2 < |fb|
    && fb[3 * k] == Low8(p.blue)
    && fb[3 * k + 1] == Low8(p.green)
    && fb[3 * k + 2] == Low8(p.red)
  }
}

=== FILE: geometry.dfy ===
/**
 Screen-space geometry of the scanline rasterizer, over exact reals: the
 renderer's `float` arithmetic is idealised, so nothing here speaks about
 rounding.
 */
module Geometry {

  datatype Vertex = Vertex(x: real, y: real, z: real)

  /** `ceil`: the smallest integer not below `r`. */
  function Ceil(r: real): (c: int)
    ensures r <= c as real < r + 1.0
  {
    -((-r).Floor)
  }

  /** The float-to-int conversion: truncation toward zero. */
  function Trunc(r: real): (t: int)
    ensures 0.0 <= r ==> t as real <= r < t as real + 1.0
    ensures r < 0.0 ==> r <= t as real < r + 1.0
  {
    if r < 0.0 then Ceil(r) else r.Floor
  }

  /**
   A directed edge between two vertices. The rasterizer builds every edge
   from a higher vertex to one at the same height or below it; `IsLeftOf`
   is stated for any direction.
   */
  datatype Edge = Edge(start: Vertex, end: Vertex)

  /** A zero-height edge: its slopes would divide by zero. */
  predicate Horizontal(e: Edge) {
    e.start.y == e.end.y
  }

  /** dx per unit y. */
  function SlopeX(e: Edge): (s: real)
    requires !Horizontal(e)
    ensures s * (e.end.y - e.start.y) == e.end.x - e.start.x
  {
    (e.end.x - e.start.x) / (e.end.y - e.start.y)
  }

  /** dz per unit y. */
  function SlopeZ(e: Edge): (s: real)
    requires !Horizontal(e)
    ensures s * (e.end.y - e.start.y) == e.end.z - e.start.z
  {
    (e.end.z - e.start.z) / (e.end.y - e.start.y)
  }

  /**
   The point of the edge's line at height `y`: the start advanced by the
   slopes times `y - start.y`, the way the rasterizer places its edge
   cursors on the first row.
   */
  function EdgeAt(e: Edge, y: real): (v: Vertex)
    requires !Horizontal(e)
    ensures v.y == y
    ensures y == e.start.y ==> v == e.start
    ensures y == e.end.y ==> v == e.end
    // v lies on the straight line through the two ends, in x and in z
    ensures (v.x - e.start.x) * (e.end.y - e.start.y) == (e.end.x - e.start.x) * (y - e.start.y)
    ensures (v.z - e.start.z) * (e.end.y - e.start.y) == (e.end.z - e.start.z) * (y - e.start.y)
  {
    var d := y - e.start.y;
    Vertex(e.start.x + SlopeX(e) * d, y, e.start.z + SlopeZ(e) * d)
  }

  /** One DDA step of an edge cursor: down one row along the edge. */
  function Step(c: Vertex, e: Edge): (n: Vertex)
    requires !Horizontal(e)
    ensures forall y :: c == EdgeAt(e, y) ==> n == EdgeAt(e, y + 1.0)
  {
    Vertex(c.x + SlopeX(e), c.y + 1.0, c.z + SlopeZ(e))
  }

  /**
   Whether the line of `e1`, followed down to the height of `e2`'s end,
   passes strictly left of that end.

   For a horizontal `e1` the slope is a division by a zero height, +0.0:
   an infinity with the sign of dx, or NaN when dx is zero too. Followed
   over a nonzero height d it is -infinity, left of everything, exactly when
   dx and d have opposite signs; over a zero height, or with a NaN slope,
   the comparison is false.

   For a downward `e1` this is the orientation test: `e2`'s end lies
   strictly right of the line through `e1`, that is, the cross product
   `dir.x * off.y - dir.y * off.x` of `e1`'s direction `dir` and the offset
   `off` from `e1`'s start to `e2.end` is negative; for an upward `e1` it is
   positive.
   */
  function IsLeftOf(e1: Edge, e2: Edge): (left: bool)
    ensures e1.start.y < e1.end.y ==>
              (left <==> (e1.end.x - e1.start.x) * (e2.end.y - e1.start.y) < (e2.end.x - e1.start.x) * (e1.end.y - e1.start.y))
    ensures e1.end.y < e1.start.y ==>
              (left <==> (e2.end.x - e1.start.x) * (e1.end.y - e1.start.y) < (e1.end.x - e1.start.x) * (e2.end.y - e1.start.y))
    ensures Horizontal(e1) ==>
              (left <==> || (e1.start.y < e2.end.y && e1.end.x < e1.start.x)
                         || (e2.end.y < e1.start.y && e1.start.x < e1.end.x))
  {
    if !Horizontal(e1) then
      var x := EdgeAt(e1, e2.end.y).x;
      OrientationTest(e1, x, e2.end.x, e2.end.y);
      x < e2.end.x
    else
      // the sign of slope * d: -infinity when dx and d have opposite signs
      var d, dx := e2.end.y - e1.start.y, e1.end.x - e1.start.x;
      (0.0 < d && dx < 0.0) || (d < 0.0 && 0.0 < dx)
  }

  /**
   The point of `e1`'s line at height `py` is left of column `px` exactly
   when the cross product of `e1`'s direction and the offset to (px, py)
   is negative for a downward `e1`, and positive for an upward one.
   */
  lemma OrientationTest(e1: Edge, x: real, px: real, py: real)
    requires !Horizontal(e1) && x == EdgeAt(e1, py).x
    ensures e1.start.y < e1.end.y ==>
              (x < px <==> (e1.end.x - e1.start.x) * (py - e1.start.y) < (px - e1.start.x) * (e1.end.y - e1.start.y))
    ensures e1.end.y < e1.start.y ==>
              (x < px <==> (px - e1.start.x) * (e1.end.y - e1.start.y) < (e1.end.x - e1.start.x) * (py - e1.start.y))
  {
    var h := e1.end.y - e1.start.y;
    assert (x - e1.start.x) * h == (e1.end.x - e1.start.x) * (py - e1.start.y);
    ScaleLess(x - e1.start.x, px - e1.start.x, h);
  }

  /** Multiplying both sides by `h` keeps a strict order when `h` is positive and flips it when negative. */
  lemma ScaleLess(a: real, b: real, h: real)
    requires h != 0.0
    ensures 0.0 < h ==> (a < b <==> a * h < b * h)
    ensures h < 0.0 ==> (a < b <==> b * h < a * h)
  {
    if 0.0 < h {
      assert (b - a) * h == b * h - a * h;
    } else {
      assert (b - a) * (-h) == a * h - b * h;
    }
  }

  datatype Triangle = Triangle(v0: Vertex, v1: Vertex, v2: Vertex)

  predicate SortedByY(t: Triangle) {
    t.v0.y <= t.v1.y <= t.v2.y
  }

  /**
   Sort three vertices by increasing y with the comparator `u.y < v.y`.
   The order of equal heights is left to the library by `std::sort`; this
   model keeps them in their given order.
   */
  function SortByY(t: Triangle): (s: Triangle)
    ensures SortedByY(s)
    ensures multiset{s.v0, s.v1, s.v2} == multiset{t.v0, t.v1, t.v2}
    ensures SortedByY(t) ==> s == t
  {
    var (p, q) := if t.v1.y < t.v0.y then (t.v1, t.v0) else (t.v0, t.v1);
    if t.v2.y < p.y then Triangle(t.v2, p, q)
    else if t.v2.y < q.y then Triangle(p, t.v2, q)
    else Triangle(p, q, t.v2)
  }

  /**
   One scanline's span: from the left end, moved right to the first pixel
   column, to the right end, with the depth slope per unit x.
   */
  datatype Span = Span(start: Vertex, end: Vertex, current: Vertex, slopeZ: real)

  function SetSpan(l: Vertex, r: Vertex): (s: Span)
    requires l.x != r.x
    ensures s.start.x == Ceil(l.x) as real && s.start.y == l.y
    ensures s.end == r && s.current == s.start
    ensures s.slopeZ * (r.x - l.x) == r.z - l.z
    // the first pixel's depth lies on the line from l to r
    ensures (s.start.z - l.z) * (r.x - l.x) == (r.z - l.z) * (s.start.x - l.x)
  {
    var slopeZ := (r.z - l.z) / (r.x - l.x);
    var c := Ceil(l.x) as real;
    assert slopeZ * (r.x - l.x) == r.z - l.z;
    var startPix := Vertex(c, l.y, l.z + slopeZ * (c - l.x));
    Span(startPix, r, startPix, slopeZ)
  }
}

=== FILE: pixels.dfy ===
/**
 The renderer's pixel buffer: a row-major grid of cells, each holding an
 8-bit quantized colour, an alpha flag and an integer depth.

 The cell of column `x`, row `y` lives at flat index `x + y * xres` (the
 row-major layout the renderer's `ARRAY` macro is assumed to compute).
 */
module PixelBuffer {

  /** Largest 12-bit intensity, 0xfff. */
  const MaxIntensity: int := 0xfff

  /** INT_MAX of a 32-bit `int`. */
  const IntMax: int := 0x7fff_ffff

  /** The reset depth, INT_MAX: "never written". */
  const MaxDepth: int := IntMax

  /** The resolution fields are 16-bit unsigned. */
  const MaxRes: int := 0xffff

  datatype Pixel = Pixel(red: int, green: int, blue: int, alpha: int, z: int)

  /** The reset cell: white in the unshifted 12-bit scale, maximum depth. */
  const Background: Pixel := Pixel(MaxIntensity, MaxIntensity, MaxIntensity, 1, MaxDepth)

  datatype Buffer = Buffer(xres: int, yres: int, cells: seq<Pixel>) {
    predicate Valid() {
      && 0 <= xres <= MaxRes
      && 0 <= yres <= MaxRes
      && |cells| == xres * yres
      // the flat index and the frame-buffer counter, 32-bit `int`s, cannot overflow
      && 3 * xres * yres <= IntMax
    }
  }

  predicate InBounds(buf: Buffer, x: int, y: int) {
    0 <= x < buf.xres && 0 <= y < buf.yres
  }

  /** Same resolution and still well formed. */
  predicate SameShape(a: Buffer, b: Buffer) {
    a.Valid() && b.Valid() && a.xres == b.xres && a.yres == b.yres
  }

  /** The renderer's bounds test; the resolutions are unsigned 16-bit, promoted to `int`. */
  function IsOutOfBound(x: int, y: int, xres: int, yres: int): (out: bool)
    ensures out <==> !(0 <= x < xres && 0 <= y < yres)
  {
    x < 0 || xres - 1 < x || y < 0 || yres - 1 < y
  }

  lemma RowMajorBound(x: int, y: int, w: int, h: int)
    requires 0 <= x < w && 0 <= y < h
    ensures x + y * w < w * h
  {
    assert (y + 1) * w <= h * w by {
      MulLeft(y + 1, h, w);
    }
  }

  lemma MulLeft(a: int, b: int, w: int)
    requires a <= b && 0 <= w
    ensures a * w <= b * w
  {
  }

  lemma NextRow(y: int, w: int)
    ensures (y + 1) * w == y * w + w
  {
  }

  lemma MulComm(a: int, b: int)
    ensures a * b == b * a
  {
  }

  /** Two cells of one row-major grid share an index only if they are the same cell. */
  lemma {:induction false} RowMajorInjective(x1: int, y1: int, x2: int, y2: int, w: int)
    requires 0 <= x1 < w && 0 <= x2 < w && 0 <= y1 && 0 <= y2
    requires x1 + y1 * w == x2 + y2 * w
    ensures x1 == x2 && y1 == y2
  {
    if y1 < y2 {
      MulLeft(y1 + 1, y2, w);
      assert false;
    } else if y2 < y1 {
      MulLeft(y2 + 1, y1, w);
      assert false;
    }
  }

  /** Flat index of an in-bounds cell. */
  function Index(buf: Buffer, x: int, y: int): (k: nat)
    requires buf.Valid() && InBounds(buf, x, y)
    ensures k < |buf.cells|
  {
    RowMajorBound(x, y, buf.xres, buf.yres);
    x + y * buf.xres
  }

  function At(buf: Buffer, x: int, y: int): Pixel
    requires buf.Valid() && InBounds(buf, x, y)
  {
    buf.cells[Index(buf, x, y)]
  }

  /** Limit an intensity to [0, 4095]. */
  function Clamp(val: int): (r: int)
    ensures 0 <= r <= MaxIntensity
    ensures 0 <= val <= MaxIntensity ==> r == val
    // r is the point of [0, 4095] nearest to val
    ensures forall c :: 0 <= c <= MaxIntensity ==> Dist(r, val) <= Dist(c, val)
  {
    if val < 0 then 0
    else if MaxIntensity < val then MaxIntensity
    else val
  }

  function Dist(a: int, b: int): nat {
    if a < b then b - a else a - b
  }

  lemma ClampIdempotent(val: int)
    ensures Clamp(Clamp(val)) == Clamp(val)
  {
  }

  lemma ClampMonotone(a: int, b: int)
    requires a <= b
    ensures Clamp(a) <= Clamp(b)
  {
  }

  /** A stored channel: the clamped intensity shifted right by 4 bits (12 bits down to 8). */
  function Quantize(val: int): (q: int)
    ensures 0 <= q <= 255
    // the shift keeps exactly the top 8 of the 12 bits
    ensures q * 16 <= Clamp(val) < q * 16 + 16
    // every intensity at or above full scale stores full 8-bit white
    ensures MaxIntensity <= val ==> q == 255
    ensures val < 16 ==> q == 0
  {
    Clamp(val) / 16
  }

  /** What `GzPut` stores for the given inputs. */
  function Stored(r: int, g: int, b: int, a: int, z: int): Pixel {
    Pixel(Quantize(r), Quantize(g), Quantize(b), a, z)
  }

  /** Write one cell; out-of-range coordinates are silently ignored. */
  function Put(buf: Buffer, i: int, j: int, r: int, g: int, b: int, a: int, z: int): (res: Buffer)
    requires buf.Valid()
    ensures SameShape(buf, res)
    ensures IsOutOfBound(i, j, buf.xres, buf.yres) ==> res == buf
    ensures forall x, y :: InBounds(buf, x, y) && (x != i || y != j) ==> At(res, x, y) == At(buf, x, y)
    ensures InBounds(buf, i, j) ==>
              && 0 <= At(res, i, j).red <= 255
              && 0 <= At(res, i, j).green <= 255
              && 0 <= At(res, i, j).blue <= 255
              && At(res, i, j) == Stored(r, g, b, a, z)
  {
    if IsOutOfBound(i, j, buf.xres, buf.yres) then buf
    else
      var res := buf.(cells := buf.cells[Index(buf, i, j) := Stored(r, g, b, a, z)]);
      assert forall x, y :: InBounds(buf, x, y) && (x != i || y != j) ==> Index(res, x, y) != Index(buf, i, j) by {
        forall x, y | InBounds(buf, x, y) && (x != i || y != j)
          ensures Index(res, x, y) != Index(buf, i, j)
        {
          if Index(res, x, y) == Index(buf, i, j) {
            RowMajorInjective(x, y, i, j, buf.xres);
          }
        }
      }
      res
  }

  /**
   Read one cell into the five output locations `prev`; out-of-range
   coordinates leave them as they were.
   */
  function Get(buf: Buffer, i: int, j: int, prev: Pixel): (out: Pixel)
    requires buf.Valid()
    ensures IsOutOfBound(i, j, buf.xres, buf.yres) ==> out == prev
    ensures InBounds(buf, i, j) ==> out == At(buf, i, j)
  {
    if IsOutOfBound(i, j, buf.xres, buf.yres) then prev else At(buf, i, j)
  }

  /** Reading a cell right after writing it yields the quantized colour and the given alpha and depth. */
  lemma PutThenGet(buf: Buffer, i: int, j: int, r: int, g: int, b: int, a: int, z: int, prev: Pixel)
    requires buf.Valid() && InBounds(buf, i, j)
    ensures Get(Put(buf, i, j, r, g, b, a, z), i, j, prev) == Pixel(Clamp(r) / 16, Clamp(g) / 16, Clamp(b) / 16, a, z)
  {
  }

  /** Reset every cell to white at maximum depth. */
  method Default(buf: Buffer) returns (res: Buffer)
    requires buf.Valid()
    ensures SameShape(buf, res)
    ensures forall k :: 0 <= k < |res.cells| ==> res.cells[k] == Background
    ensures forall x, y :: InBounds(res, x, y) ==> At(res, x, y) == Background
  {
    var cells := buf.cells;
    var w, h := buf.xres, buf.yres;
    var y, done := 0, 0;
    while y < h
      invariant 0 <= y <= h
      invariant done == y * w
      invariant done <= w * h
      invariant |cells| == w * h
      invariant forall k :: 0 <= k < done ==> cells[k] == Background
    {
      MulLeft(y + 1, h, w);
      NextRow(y, w);
      MulComm(h, w);
      var x := 0;
      while x < w
        invariant 0 <= x <= w
        invariant done + w <= w * h
        invariant |cells| == w * h
        invariant forall k :: 0 <= k < done + x ==> cells[k] == Background
      {
        cells := cells[x + y * w := Background];  // ARRAY(x, y)
        x := x + 1;
      }
      y, done := y + 1, done + w;
    }
    MulComm(h, w);
    res := buf.(cells := cells);
  }
}

=== FILE: scanline.dfy ===
/**
 The span rasterizer: a y-sorted triangle is walked row by row in two
 halves, above and below its middle vertex, with one edge cursor on each
 side stepped by the edge slopes (the DDA). Every covered pixel is depth
 tested against the buffer and written with the flat colour when strictly
 nearer.

 The fill rule is top-left inclusive, bottom-right exclusive: rows from
 `ceil(start.y)` while `y < end.y`, columns from `ceil(left.x)` while
 `x < right.x`.

 Each operation is stated against a closed-form description (`RowOf`,
 `Shade`) that places every row's ends directly on the edge lines instead of
 stepping to them.
 */
module Scanline {
  import opened PixelBuffer
  import opened Geometry
  import opened Attributes

  /**
   The depth test and write of one covered pixel: the flat colour, alpha 1
   and the depth converted to `int` are stored only when `z` is strictly
   nearer than the stored depth.
   */
  function DepthTest(prev: Pixel, z: real, c: Color): (p: Pixel)
    ensures z < prev.z as real ==> p == Stored(c.r, c.g, c.b, 1, Trunc(z))
    ensures prev.z as real <= z ==> p == prev
    // the stored depth never increases, and a tie keeps the stored pixel
    ensures p.z <= prev.z
    ensures z == prev.z as real ==> p == prev
  {
    if z < prev.z as real then Stored(c.r, c.g, c.b, 1, Trunc(z)) else prev
  }

  /** Column `x` lies in the span from `l` to `r`: left end inclusive, right end exclusive. */
  predicate Covers(l: Vertex, r: Vertex, x: int) {
    Ceil(l.x) <= x && (x as real) < r.x
  }

  /** Row `j` lies in the rows of an edge from height `top` to `bottom`: top inclusive, bottom exclusive. */
  predicate InRows(top: real, bottom: real, j: int) {
    Ceil(top) <= j && (j as real) < bottom
  }

  /**
   Two spans that meet at a shared edge point `e` split the columns of the
   span they make up: no column lies in both, and none is lost.
   */
  lemma SpanSplit(l: Vertex, e: Vertex, r: Vertex, x: int)
    requires l.x <= e.x <= r.x
    ensures !(Covers(l, e, x) && Covers(e, r, x))
    ensures Covers(l, e, x) || Covers(e, r, x) <==> Covers(l, r, x)
  {
  }

  /**
   Likewise for rows: the rows of two edges meeting at height `b` split the
   rows of the edge from `a` to `c` between them.
   */
  lemma RowSplit(a: real, b: real, c: real, j: int)
    requires a <= b <= c
    ensures !(InRows(a, b, j) && InRows(b, c, j))
    ensures InRows(a, b, j) || InRows(b, c, j) <==> InRows(a, c, j)
  {
  }

  /** The depth at column `x` of the line from `l` to `r`. */
  function SpanZ(l: Vertex, r: Vertex, x: int): real
    requires l.x < r.x
  {
    l.z + (r.z - l.z) / (r.x - l.x) * (x as real - l.x)
  }

  /** What one row's fill does to the pixel in column `x`. */
  function Shade(prev: Pixel, l: Vertex, r: Vertex, x: int, c: Color): Pixel {
    if Covers(l, r, x) then DepthTest(prev, SpanZ(l, r, x), c) else prev
  }

  /** The two ends of one row, left first, or no row at all. */
  datatype Row = Outside | Row(left: Vertex, right: Vertex)

  function ShadeRow(prev: Pixel, row: Row, c: Color, x: int): Pixel {
    match row
    case Outside => prev
    case Row(l, r) => Shade(prev, l, r, x, c)
  }

  /**
   Row `j` of one half of a triangle: drawn when
   `ceil(short.start.y) <= j < short.end.y`; its ends lie on the short edge
   and on the long edge, the short one on the left when `leftShort`.
   */
  function HalfRow(short: Edge, long: Edge, leftShort: bool, j: int): Row
    requires !Horizontal(long)
  {
    if InRows(short.start.y, short.end.y, j) then
      var s := EdgeAt(short, j as real);
      var g := EdgeAt(long, j as real);
      if leftShort then Row(s, g) else Row(g, s)
    else Outside
  }

  /**
   Row `j` of a y-sorted triangle. Rows above the middle vertex use the
   top short edge, rows below it the bottom short edge; the long edge runs
   from the top to the bottom vertex and `IsLeftOf` puts the short edges on
   the left or on the right.
   */
  function RowOf(t: Triangle, j: int): Row
    requires SortedByY(t)
  {
    if t.v0.y == t.v2.y then Outside
    else
      var e01, e12, e02 := Edge(t.v0, t.v1), Edge(t.v1, t.v2), Edge(t.v0, t.v2);
      var leftShort := IsLeftOf(e01, e02);
      if (j as real) < t.v1.y then HalfRow(e01, e02, leftShort, j)
      else HalfRow(e12, e02, leftShort, j)
  }

  /**
   Fill row `y` between edge points `l` and `r`. `crt` carries the five
   locations `GzGet` reads into; an out-of-range column leaves them stale,
   and the `GzPut` that may follow is then ignored.
   */
  method FillRow(buf: Buffer, y: int, l: Vertex, r: Vertex, c: Color, crt: Pixel) returns (res: Buffer, crt': Pixel)
    requires buf.Valid()
    ensures SameShape(buf, res)
    ensures forall i, j :: InBounds(buf, i, j) ==>
              At(res, i, j) == if j == y then Shade(At(buf, i, j), l, r, i, c) else At(buf, i, j)
  {
    res, crt' := buf, crt;
    // setSpan divides by the span width; it is only read when a column is covered,
    // and then l.x <= ceil(l.x) < r.x
    if Ceil(l.x) as real < r.x {
      var span := SetSpan(l, r);
      var x := Ceil(l.x);
      while (x as real) < span.end.x
        invariant SameShape(buf, res)
        invariant Ceil(l.x) <= x <= Ceil(r.x)
        invariant span.end == r && span.slopeZ == (r.z - l.z) / (r.x - l.x)
        invariant span.current.z == SpanZ(l, r, x)
        invariant forall i, j :: InBounds(buf, i, j) ==>
                    At(res, i, j) == if j == y && i < x then Shade(At(buf, i, j), l, r, i, c) else At(buf, i, j)
        decreases Ceil(r.x) - x
      {
        crt' := Get(res, x, y, crt');
        if span.current.z < crt'.z as real {
          res := Put(res, x, y, c.r, c.g, c.b, 1, Trunc(span.current.z));
        }
        span := span.(current := Vertex(x as real + 1.0, y as real, span.current.z + span.slopeZ));
        x := x + 1;
      }
    }
  }

  /**
   Fill one half of a triangle: rows from `ceil(short.start.y)` while
   `y < short.end.y`, a cursor on each edge stepped one row at a time.
   The long edge's cursor is passed in and handed back, since the lower
   half continues it where the upper half stopped.
   */
  method FillHalf(buf: Buffer, crt: Pixel, c: Color, short: Edge, long: Edge, longCur: Vertex, leftShort: bool)
    returns (res: Buffer, crt': Pixel, longCur': Vertex)
    requires buf.Valid()
    requires short.start.y <= short.end.y && !Horizontal(long)
    requires longCur == EdgeAt(long, Ceil(short.start.y) as real)
    ensures SameShape(buf, res)
    ensures longCur' == EdgeAt(long, Ceil(short.end.y) as real)
    ensures forall i, j :: InBounds(buf, i, j) ==>
              At(res, i, j) == ShadeRow(At(buf, i, j), HalfRow(short, long, leftShort, j), c, i)
  {
    res, crt', longCur' := buf, crt, longCur;
    if Horizontal(short) {
      // no row: ceil(start.y) >= start.y == end.y; the source's cursor on this
      // edge is a division by zero, and the span built from it is never used
      return;
    }
    var y := Ceil(short.start.y);
    var shortCur := EdgeAt(short, y as real);
    while (y as real) < short.end.y
      invariant SameShape(buf, res)
      invariant Ceil(short.start.y) <= y <= Ceil(short.end.y)
      invariant shortCur == EdgeAt(short, y as real)
      invariant longCur' == EdgeAt(long, y as real)
      invariant forall i, j :: InBounds(buf, i, j) ==>
                  At(res, i, j) == if j < y then ShadeRow(At(buf, i, j), HalfRow(short, long, leftShort, j), c, i) else At(buf, i, j)
      decreases Ceil(short.end.y) - y
    {
      var l := if leftShort then shortCur else longCur';
      var r := if leftShort then longCur' else shortCur;
      res, crt' := FillRow(res, y, l, r, c, crt');
      shortCur := Step(shortCur, short);
      longCur' := Step(longCur', long);
      y := y + 1;
    }
  }

  /**
   Rasterize a y-sorted triangle with flat colour `c`: classify the edges,
   then fill the upper and the lower half.
   */
  method Rasterize(buf: Buffer, t: Triangle, c: Color) returns (res: Buffer)
    requires buf.Valid() && SortedByY(t)
    ensures SameShape(buf, res)
    ensures t.v0.y == t.v2.y ==> res == buf
    ensures forall i, j :: InBounds(buf, i, j) ==> At(res, i, j) == ShadeRow(At(buf, i, j), RowOf(t, j), c, i)
  {
    if t.v0.y == t.v2.y {
      // every edge is horizontal, so neither half has a row
      return buf;
    }
    var e01, e12, e02 := Edge(t.v0, t.v1), Edge(t.v1, t.v2), Edge(t.v0, t.v2);
    var leftShort := IsLeftOf(e01, e02);
    var crt := Pixel(0, 0, 0, 0, 0);
    var longCur := EdgeAt(e02, Ceil(t.v0.y) as real);
    var mid;
    mid, crt, longCur := FillHalf(buf, crt, c, e01, e02, longCur, leftShort);
    res, crt, longCur := FillHalf(mid, crt, c, e12, e02, longCur, leftShort);
  }

  /**
   Submit a triangle: the last `Position` entry of the list supplies the
   three vertices, sorted by y; without one the vertices stay at the origin.
   */
  method PutTriangle(buf: Buffer, flat: Color, parts: seq<Item<Triangle>>) returns (res: Buffer)
    requires buf.Valid()
    ensures SameShape(buf, res)
    ensures (forall k :: 0 <= k < |parts| ==> parts[k].name != Position) ==> res == buf
    ensures forall k :: 0 <= k < |parts| && parts[k].name == Position && LastNamed(parts, Position, k) ==>
              forall i, j :: InBounds(buf, i, j) ==>
                At(res, i, j) == ShadeRow(At(buf, i, j), RowOf(SortByY(parts[k].value), j), flat, i)
  {
    var origin := Vertex(0.0, 0.0, 0.0);
    // sorting once after the scan is sorting after every entry: only the last one is kept
    var t := SortByY(Latest(parts, Position, Triangle(origin, origin, origin)));
    res := Rasterize(buf, t, flat);
  }
}

=== FILE: triangle_facts.dfy ===
/**
 Properties of the rasterized triangle: the edge classification puts every
 row's ends in order, degenerate triangles draw nothing, written pixels obey
 the fill rule and the depth test, and the worked example of a right
 triangle covers exactly the pixels with x + y < 10.
 */
module TriangleFacts {
  import opened PixelBuffer
  import opened Geometry
  import opened Attributes
  import opened Scanline

  /** The edge line at height `y`, measured back from the edge's end. */
  lemma EdgeFromEnd(e: Edge, y: real)
    requires !Horizontal(e)
    ensures EdgeAt(e, y).x == e.end.x - SlopeX(e) * (e.end.y - y)
  {
    assert SlopeX(e) * (e.end.y - e.start.y) == e.end.x - e.start.x;
  }

  lemma ProductSign(a: real, b: real)
    requires 0.0 < b
    ensures a * b < 0.0 <==> a < 0.0
    ensures a * b == 0.0 <==> a == 0.0
  {
  }

  lemma ProductNonNeg(a: real, b: real)
    requires 0.0 <= a && 0.0 <= b
    ensures 0.0 <= a * b
  {
  }

  /**
   The gap between the top short edge and the long edge grows linearly from
   the top vertex: `(s01 - s02) * (y - v0.y)`.
   */
  lemma UpperGap(t: Triangle, y: real)
    requires SortedByY(t) && t.v0.y < t.v1.y
    ensures EdgeAt(Edge(t.v0, t.v1), y).x - EdgeAt(Edge(t.v0, t.v2), y).x
            == (SlopeX(Edge(t.v0, t.v1)) - SlopeX(Edge(t.v0, t.v2))) * (y - t.v0.y)
  {
  }

  /**
   Below the middle vertex the gap between the bottom short edge and the
   long edge shrinks linearly to zero at the bottom vertex, and its size at
   the middle vertex is how far that vertex lies right of the long edge.
   */
  lemma LowerGap(t: Triangle, y: real)
    requires SortedByY(t) && t.v1.y < t.v2.y
    ensures EdgeAt(Edge(t.v1, t.v2), y).x - EdgeAt(Edge(t.v0, t.v2), y).x
            == (SlopeX(Edge(t.v0, t.v2)) - SlopeX(Edge(t.v1, t.v2))) * (t.v2.y - y)
    ensures (SlopeX(Edge(t.v0, t.v2)) - SlopeX(Edge(t.v1, t.v2))) * (t.v2.y - t.v1.y)
            == t.v1.x - EdgeAt(Edge(t.v0, t.v2), t.v1.y).x
  {
    EdgeFromEnd(Edge(t.v1, t.v2), y);
    EdgeFromEnd(Edge(t.v0, t.v2), y);
    EdgeFromEnd(Edge(t.v1, t.v2), t.v1.y);
    EdgeFromEnd(Edge(t.v0, t.v2), t.v1.y);
  }

  /** A product with a non-negative factor keeps the other factor's sign. */
  lemma GapSign(d: real, w: real, gap: real)
    requires 0.0 <= w && gap == d * w
    ensures d < 0.0 ==> gap <= 0.0
    ensures 0.0 <= d ==> 0.0 <= gap
  {
    if d < 0.0 {
      ProductNonNeg(-d, w);
    } else {
      ProductNonNeg(d, w);
    }
  }

  /**
   The classification puts the short edges on the left exactly when the
   middle vertex lies strictly left of the long edge (for a triangle that is
   not flat).
   */
  lemma MiddleSideMatchesClassification(t: Triangle)
    requires SortedByY(t) && t.v0.y < t.v2.y
    ensures IsLeftOf(Edge(t.v0, t.v1), Edge(t.v0, t.v2)) <==> t.v1.x < EdgeAt(Edge(t.v0, t.v2), t.v1.y).x
  {
    var e01, e02 := Edge(t.v0, t.v1), Edge(t.v0, t.v2);
    if t.v0.y < t.v1.y {
      var d := SlopeX(e01) - SlopeX(e02);
      UpperGap(t, t.v2.y);
      ProductSign(d, t.v2.y - t.v0.y);
      UpperGap(t, t.v1.y);
      ProductSign(d, t.v1.y - t.v0.y);
    }
  }

  /**
   Above the middle vertex the top edge is steeper to the left than the
   long edge exactly when the short edges are classified left.
   */
  lemma UpperSlopeSign(t: Triangle)
    requires SortedByY(t) && t.v0.y < t.v1.y
    ensures IsLeftOf(Edge(t.v0, t.v1), Edge(t.v0, t.v2)) <==> SlopeX(Edge(t.v0, t.v1)) - SlopeX(Edge(t.v0, t.v2)) < 0.0
  {
    var e01, e02 := Edge(t.v0, t.v1), Edge(t.v0, t.v2);
    // the classification reads the sign of s01 - s02 off at the bottom vertex's height
    var d := SlopeX(e01) - SlopeX(e02);
    assert IsLeftOf(e01, e02) <==> EdgeAt(e01, t.v2.y).x < EdgeAt(e02, t.v2.y).x;
    UpperGap(t, t.v2.y);
    ProductSign(d, t.v2.y - t.v0.y);
  }

  /** Above the middle vertex the top edge lies on the side the classification gives it. */
  lemma UpperEdgesOrdered(t: Triangle, y: real)
    requires SortedByY(t) && t.v0.y <= y < t.v1.y
    ensures IsLeftOf(Edge(t.v0, t.v1), Edge(t.v0, t.v2)) ==> EdgeAt(Edge(t.v0, t.v1), y).x <= EdgeAt(Edge(t.v0, t.v2), y).x
    ensures !IsLeftOf(Edge(t.v0, t.v1), Edge(t.v0, t.v2)) ==> EdgeAt(Edge(t.v0, t.v2), y).x <= EdgeAt(Edge(t.v0, t.v1), y).x
  {
    var e01, e02 := Edge(t.v0, t.v1), Edge(t.v0, t.v2);
    var d := SlopeX(e01) - SlopeX(e02);
    UpperSlopeSign(t);
    UpperGap(t, y);
    GapSign(d, y - t.v0.y, EdgeAt(e01, y).x - EdgeAt(e02, y).x);
  }

  /**
   Below the middle vertex the long edge is steeper to the right than the
   bottom edge exactly when the short edges are classified left.
   */
  lemma LowerSlopeSign(t: Triangle)
    requires SortedByY(t) && t.v1.y < t.v2.y
    ensures IsLeftOf(Edge(t.v0, t.v1), Edge(t.v0, t.v2)) <==> SlopeX(Edge(t.v0, t.v2)) - SlopeX(Edge(t.v1, t.v2)) < 0.0
  {
    var g := SlopeX(Edge(t.v0, t.v2)) - SlopeX(Edge(t.v1, t.v2));
    LowerGap(t, t.v1.y);
    ProductSign(g, t.v2.y - t.v1.y);
    MiddleSideMatchesClassification(t);
  }

  /** Below the middle vertex the bottom edge lies on the side the classification gives it. */
  lemma LowerEdgesOrdered(t: Triangle, y: real)
    requires SortedByY(t) && t.v1.y <= y < t.v2.y
    ensures IsLeftOf(Edge(t.v0, t.v1), Edge(t.v0, t.v2)) ==> EdgeAt(Edge(t.v1, t.v2), y).x <= EdgeAt(Edge(t.v0, t.v2), y).x
    ensures !IsLeftOf(Edge(t.v0, t.v1), Edge(t.v0, t.v2)) ==> EdgeAt(Edge(t.v0, t.v2), y).x <= EdgeAt(Edge(t.v1, t.v2), y).x
  {
    var e12, e02 := Edge(t.v1, t.v2), Edge(t.v0, t.v2);
    // the gap has the sign of s02 - s12, the side of the long edge the middle vertex is on
    var g := SlopeX(e02) - SlopeX(e12);
    LowerSlopeSign(t);
    LowerGap(t, y);
    GapSign(g, t.v2.y - y, EdgeAt(e12, y).x - EdgeAt(e02, y).x);
  }

  /**
   `IsLeftOf` classifies correctly: every integer row from `ceil(top.y)` up
   to (not including) `bottom.y` is drawn, and its left end is not right of
   its right end, whichever side the short edges are on and also when the
   top edge is horizontal.
   */
  lemma {:induction false} RowEndsOrdered(t: Triangle, j: int)
    requires SortedByY(t)
    requires Ceil(t.v0.y) <= j && (j as real) < t.v2.y
    ensures RowOf(t, j).Row?
    ensures RowOf(t, j).left.x <= RowOf(t, j).right.x
  {
    var y := j as real;
    if y < t.v1.y {
      UpperEdgesOrdered(t, y);
    } else {
      assert Ceil(t.v1.y) <= j;
      LowerEdgesOrdered(t, y);
    }
  }

  /** The three vertices lie on one line (or two of them coincide). */
  predicate Collinear(t: Triangle) {
    (t.v1.x - t.v0.x) * (t.v2.y - t.v0.y) == (t.v2.x - t.v0.x) * (t.v1.y - t.v0.y)
  }

  /** In a degenerate triangle the top edge runs along the long edge. */
  lemma UpperEdgesMeet(t: Triangle, y: real)
    requires SortedByY(t) && Collinear(t) && t.v0.y < t.v1.y
    ensures EdgeAt(Edge(t.v0, t.v1), y).x == EdgeAt(Edge(t.v0, t.v2), y).x
  {
    var e01, e02 := Edge(t.v0, t.v1), Edge(t.v0, t.v2);
    var dy, h := t.v1.y - t.v0.y, t.v2.y - t.v0.y;
    assert SlopeX(e01) * dy == t.v1.x - t.v0.x;
    assert SlopeX(e02) * h == t.v2.x - t.v0.x;
    assert (SlopeX(e01) - SlopeX(e02)) * (dy * h) == 0.0;
    ProductSign(SlopeX(e01) - SlopeX(e02), dy * h);
    UpperGap(t, y);
  }

  /** In a degenerate triangle the middle vertex lies on the long edge. */
  lemma MiddleOnLongEdge(t: Triangle)
    requires SortedByY(t) && Collinear(t) && t.v0.y < t.v2.y
    ensures t.v1.x == EdgeAt(Edge(t.v0, t.v2), t.v1.y).x
  {
    var h := t.v2.y - t.v0.y;
    var s02 := SlopeX(Edge(t.v0, t.v2));
    assert s02 * h == t.v2.x - t.v0.x;
    var m := t.v1.x - EdgeAt(Edge(t.v0, t.v2), t.v1.y).x;
    assert m == t.v1.x - t.v0.x - s02 * (t.v1.y - t.v0.y);
    assert m * h == 0.0;
    ProductSign(m, h);
  }

  /** In a degenerate triangle the bottom edge runs along the long edge. */
  lemma LowerEdgesMeet(t: Triangle, y: real)
    requires SortedByY(t) && Collinear(t) && t.v1.y < t.v2.y
    ensures EdgeAt(Edge(t.v1, t.v2), y).x == EdgeAt(Edge(t.v0, t.v2), y).x
  {
    MiddleOnLongEdge(t);
    LowerGap(t, y);
    var g := SlopeX(Edge(t.v0, t.v2)) - SlopeX(Edge(t.v1, t.v2));
    ProductSign(g, t.v2.y - t.v1.y);
  }

  /** A degenerate triangle writes no pixel: every row's two ends coincide. */
  lemma {:induction false} DegenerateDrawsNothing(t: Triangle, prev: Pixel, c: Color, i: int, j: int)
    requires SortedByY(t) && Collinear(t)
    ensures ShadeRow(prev, RowOf(t, j), c, i) == prev
  {
    var row := RowOf(t, j);
    if row.Row? {
      var y := j as real;
      if y < t.v1.y {
        UpperEdgesMeet(t, y);
      } else {
        LowerEdgesMeet(t, y);
      }
      assert row.left.x == row.right.x;
    }
  }

  /**
   A pixel the triangle changes lies in a drawn row, between
   `ceil(top.y)` inclusive and `bottom.y` exclusive, in a column between
   `ceil(left.x)` inclusive and `right.x` exclusive, and its span depth was
   strictly nearer than the stored one, which does not increase.
   */
  lemma {:induction false} WrittenPixelsObeyFillRule(t: Triangle, prev: Pixel, c: Color, i: int, j: int)
    requires SortedByY(t)
    ensures ShadeRow(prev, RowOf(t, j), c, i) != prev ==>
              && Ceil(t.v0.y) <= j && (j as real) < t.v2.y
              && RowOf(t, j).Row?
              && Ceil(RowOf(t, j).left.x) <= i && (i as real) < RowOf(t, j).right.x
              && SpanZ(RowOf(t, j).left, RowOf(t, j).right, i) < prev.z as real
              && ShadeRow(prev, RowOf(t, j), c, i).z <= prev.z
  {
    var row := RowOf(t, j);
    if ShadeRow(prev, row, c, i) != prev {
      assert row.Row?;
      if (j as real) >= t.v1.y {
        assert Ceil(t.v0.y) <= Ceil(t.v1.y);
      }
    }
  }

  function Min3(a: real, b: real, c: real): real {
    if a <= b && a <= c then a else if b <= c then b else c
  }

  function Max3(a: real, b: real, c: real): real {
    if a >= b && a >= c then a else if b >= c then b else c
  }

  /** Between its end heights, an edge's point lies between its end columns. */
  lemma EdgeBetweenEnds(e: Edge, y: real)
    requires !Horizontal(e) && e.start.y <= y <= e.end.y
    ensures e.start.x <= e.end.x ==> e.start.x <= EdgeAt(e, y).x <= e.end.x
    ensures e.end.x <= e.start.x ==> e.end.x <= EdgeAt(e, y).x <= e.start.x
  {
    var h := e.end.y - e.start.y;
    var dx := e.end.x - e.start.x;
    var x := EdgeAt(e, y).x;
    // (x - start.x) * h == dx * (y - start.y), with 0 <= y - start.y <= h
    GapSign(dx, y - e.start.y, (x - e.start.x) * h);
    ProductSign(x - e.start.x, h);
    assert (x - e.end.x) * h == dx * (y - e.end.y);
    GapSign(-dx, e.end.y - y, (x - e.end.x) * h);
    ProductSign(x - e.end.x, h);
  }

  /**
   No pixel outside the triangle's bounding box is written: a changed pixel
   has its row in `[min y, max y)` and its column in `[min x, max x)` of the
   three vertices.
   */
  lemma {:induction false} WrittenPixelsInBoundingBox(t: Triangle, prev: Pixel, c: Color, i: int, j: int)
    requires SortedByY(t)
    ensures ShadeRow(prev, RowOf(t, j), c, i) != prev ==>
              && t.v0.y <= j as real < t.v2.y
              && Min3(t.v0.x, t.v1.x, t.v2.x) <= i as real < Max3(t.v0.x, t.v1.x, t.v2.x)
  {
    var row := RowOf(t, j);
    if ShadeRow(prev, row, c, i) != prev {
      WrittenPixelsObeyFillRule(t, prev, c, i, j);
      var y := j as real;
      var e01, e12, e02 := Edge(t.v0, t.v1), Edge(t.v1, t.v2), Edge(t.v0, t.v2);
      EdgeBetweenEnds(e02, y);
      if y < t.v1.y {
        EdgeBetweenEnds(e01, y);
        assert row == Row(EdgeAt(e01, y), EdgeAt(e02, y)) || row == Row(EdgeAt(e02, y), EdgeAt(e01, y));
      } else {
        EdgeBetweenEnds(e12, y);
        assert row == Row(EdgeAt(e12, y), EdgeAt(e02, y)) || row == Row(EdgeAt(e02, y), EdgeAt(e12, y));
      }
    }
  }

  /** The stored depth of no pixel increases when a triangle is drawn. */
  lemma TriangleNeverRaisesDepth(t: Triangle, prev: Pixel, c: Color, i: int, j: int)
    requires SortedByY(t)
    ensures ShadeRow(prev, RowOf(t, j), c, i).z <= prev.z
  {
  }

  /** Row `row` covers column `i`. */
  predicate Drawn(row: Row, i: int) {
    row.Row? && Covers(row.left, row.right, i)
  }

  /**
   Two edges that leave one point (in x and y) for one end point have the
   same column at every height, whatever the depths.
   */
  lemma SharedEdgeColumn(e: Edge, f: Edge, y: real)
    requires !Horizontal(e)
    requires e.start.x == f.start.x && e.start.y == f.start.y
    requires e.end.x == f.end.x && e.end.y == f.end.y
    ensures EdgeAt(e, y).x == EdgeAt(f, y).x
  {
    assert SlopeX(e) == SlopeX(f);
  }

  /**
   `std::sort` may put the two top vertices of a flat-topped triangle in
   either order: both orders cover the same pixels and shade them alike.
   */
  lemma TopTieOrderIrrelevant(t: Triangle, prev: Pixel, c: Color, i: int, j: int)
    requires SortedByY(t) && t.v0.y == t.v1.y
    ensures var u := Triangle(t.v1, t.v0, t.v2);
            && SortedByY(u)
            && (Drawn(RowOf(u, j), i) <==> Drawn(RowOf(t, j), i))
            && ShadeRow(prev, RowOf(u, j), c, i) == ShadeRow(prev, RowOf(t, j), c, i)
  {
    var u := Triangle(t.v1, t.v0, t.v2);
    var y := j as real;
    if t.v0.y < t.v2.y && t.v1.y <= y {
      // both take the lower half; the two short edges trade places with the long one
      var e, f := Edge(t.v1, t.v2), Edge(t.v0, t.v2);
      if t.v0.x == t.v1.x {
        SharedEdgeColumn(e, f, y);
        assert !Drawn(RowOf(t, j), i) && !Drawn(RowOf(u, j), i);
      } else {
        assert RowOf(u, j) == RowOf(t, j);
      }
    } else {
      // a flat triangle, or a row above the horizontal top edge
      assert RowOf(t, j) == Outside && RowOf(u, j) == Outside;
    }
  }

  /**
   Likewise for the two bottom vertices of a flat-bottomed triangle: both
   orders cover the same pixels and shade them alike.
   */
  lemma BottomTieOrderIrrelevant(t: Triangle, prev: Pixel, c: Color, i: int, j: int)
    requires SortedByY(t) && t.v1.y == t.v2.y
    ensures var u := Triangle(t.v0, t.v2, t.v1);
            && SortedByY(u)
            && (Drawn(RowOf(u, j), i) <==> Drawn(RowOf(t, j), i))
            && ShadeRow(prev, RowOf(u, j), c, i) == ShadeRow(prev, RowOf(t, j), c, i)
  {
    var u := Triangle(t.v0, t.v2, t.v1);
    var y := j as real;
    if t.v0.y < t.v2.y && y < t.v1.y {
      // both take the upper half; the short edge and the long edge trade places
      var e, f := Edge(t.v0, t.v1), Edge(t.v0, t.v2);
      assert EdgeAt(e, t.v2.y) == t.v1 && EdgeAt(f, t.v1.y) == t.v2;
      if t.v1.x == t.v2.x {
        SharedEdgeColumn(e, f, y);
        assert !Drawn(RowOf(t, j), i) && !Drawn(RowOf(u, j), i);
      } else {
        assert RowOf(u, j) == RowOf(t, j);
      }
    } else {
      // a flat triangle, or a row at or below the horizontal bottom edge
      assert RowOf(t, j) == Outside && RowOf(u, j) == Outside;
    }
  }

  /** The six orders in which three vertices can be submitted. */
  function Orders(a: Vertex, b: Vertex, c: Vertex): set<Triangle> {
    {Triangle(a, b, c), Triangle(a, c, b), Triangle(b, a, c),
     Triangle(b, c, a), Triangle(c, a, b), Triangle(c, b, a)}
  }

  /**
   The worked example: on any buffer, the triangle (0,0), (10,0), (0,10),
   submitted in any of its six vertex orders, covers exactly the columns
   `i >= 0` of rows `0 <= j < 10` with `i + j < 10`.
   */
  lemma {:induction false} RightTriangleCoverage(t: Triangle, z: real, i: int, j: int)
    requires t in Orders(Vertex(0.0, 0.0, z), Vertex(10.0, 0.0, z), Vertex(0.0, 10.0, z))
    ensures Drawn(RowOf(SortByY(t), j), i) <==> (0 <= j < 10 && 0 <= i && i + j < 10)
  {
    var a, b, c := Vertex(0.0, 0.0, z), Vertex(10.0, 0.0, z), Vertex(0.0, 10.0, z);
    var s := Triangle(a, b, c);
    // the sort keeps the two top vertices in their given order
    assert SortByY(t) == s || SortByY(t) == Triangle(b, a, c);
    if SortByY(t) != s {
      TopTieOrderIrrelevant(s, Background, Color(0, 0, 0), i, j);
    }
    assert !IsLeftOf(Edge(a, b), Edge(a, c));
    assert Ceil(0.0) == 0;
    var y := j as real;
    if 0 <= j < 10 {
      assert EdgeAt(Edge(b, c), y).x == 10.0 - y;
      assert EdgeAt(Edge(a, c), y).x == 0.0;
      assert RowOf(s, j) == Row(EdgeAt(Edge(a, c), y), EdgeAt(Edge(b, c), y));
    } else {
      assert RowOf(s, j) == Outside;
    }
  }

  /**
   Depths are stored as integers, so a later triangle only a fraction
   nearer can lose the test: a pixel first drawn at depth 0.5 stores 0, and
   a second write at 0.2 is then rejected.
   */
  lemma FractionalDepthTruncated(first: Color, second: Color)
    ensures var p := DepthTest(Background, 0.5, first);
            && p.z == 0
            && DepthTest(p, 0.2, second) == p
  {
    assert Trunc(0.5) == 0;
  }

  /**
   For the same reason the submission order of two triangles matters: with
   depths 0.5 and 0.2 the first one submitted keeps the pixel, whichever
   it is. Two colours that quantize differently leave different pixels.
   */
  lemma {:induction false} SubmissionOrderMatters(c1: Color, c2: Color)
    ensures DepthTest(DepthTest(Background, 0.5, c1), 0.2, c2) == Stored(c1.r, c1.g, c1.b, 1, 0)
    ensures DepthTest(DepthTest(Background, 0.2, c2), 0.5, c1) == Stored(c2.r, c2.g, c2.b, 1, 0)
    ensures Quantize(c1.r) != Quantize(c2.r) ==>
              DepthTest(DepthTest(Background, 0.5, c1), 0.2, c2) != DepthTest(DepthTest(Background, 0.2, c2), 0.5, c1)
  {
    assert Trunc(0.5) == 0 && Trunc(0.2) == 0;
  }
}
